=== FILE: README.md ===
# cdtest project lifecycle, in Dafny

cdtest manages named scratch directories called projects. A project lives under one of two fixed roots:

- the persistent root `/var/tmp/cdtest`;
- the volatile root `/tmp/cdtest`.

Each project directory holds a `.cdtest.toml` metadata file with three fields:

- `name`;
- `timestamp`, the last time the project was entered;
- `garbage_collection`, the retention period.

Each invocation does the following, in order:

1. Makes sure both roots exist.
2. Resolves the requested project. A project in the persistent root is used first. If there is none, the one in the volatile root is used. If there is none there either, a fresh project is made.
3. Applies the `--tmp` and `--gc` flags to the project.
4. Creates the project's directory. A persistent project also gets a symlink from the volatile root.
5. Saves the project's metadata.
6. Scans both roots for every project.
7. Deletes every other project whose retention has run out.

This model covers all of that over an abstract filesystem. Launching the shell is not modelled.

Modules:

- `FileSystem` (`filesystem.dfy`): the two roots, each `Missing` or a map from child name to `Dir(config)`, `Symlink(target)` or `File`. It also has the `std::fs` primitives the tool uses. Failures that follow from the state are decided from the state. Examples are creating over an existing entry, creating under a missing root, and writing into something that is not a directory. Failures that do not follow from the state, such as permission errors, come from a `Faults` value that the caller passes in.
- `Projects` (`projects.dfy`): the `Project` record, resolution, loading, saving, set-up and garbage collection (`src/project.rs`).
- `Cdtest` (`cdtest.dfy`): root bootstrap, the registry scan, reconciling the flags, and one whole invocation as a pure transition (`src/main.rs`).
- `Errors` and `Options`: the error enumeration of `src/error.rs`, plus result and option types.

Time is measured in whole seconds. The current time `now`, the `--gc` duration parser and the order in which a root's children are listed are all parameters.

Where the code's own documentation promises more than the code does, the model follows the code:

- **Existing projects.** The `--override` help text says it overrides project settings "if existing" (src/main.rs:80). The `existing` field is documented as "whether or not this project already existed" (src/project.rs:27-29). But `existing` is a skipped field that always loads as `false`, so the gate at src/main.rs:97 is always open. `--tmp` and `--gc` are therefore applied on every invocation, with or without `--override`. `Cdtest.Prepare`, `Cdtest.ScenarioGcWithoutOverride` and `Cdtest.RunBadDuration` state this.
- **Re-entering a volatile project without `--tmp`.** The project resolves as tmp-only, and then the gate sets tmp-only to `false`. `initialize` creates a new persistent directory holding the volatile project's retention and a fresh timestamp. The volatile directory is already a directory, so it is neither linked nor rewritten. Both directories then exist, and the scan lists two projects with the same name (`Cdtest.ScenarioReenterVolatile`). Garbage collection then matches paths by name. Once the volatile twin expires, collecting it removes the live persistent project too (`Cdtest.StaleTwinDeletesFresh`).
- **Volatile projects and the persistent root.** The `--tmp` help text says "Exist only in memory" (src/main.rs:81). But every persistent project's volatile path is a symlink to its persistent directory. A tmp-only project whose volatile path is such a link has its metadata written through it into the persistent root. The common case is `cdtest --tmp demo` after a plain `cdtest demo`: `demo` becomes tmp-only, and its save still lands in `/var/tmp/cdtest/demo` (`Cdtest.TmpFlagOnPersistentWritesVar`, `Projects.InitializeTmpOnlyWritesThroughSymlink`).

## Model

| member | source | states |
|---|---|---|
| `FileSystem.Resolve` | src/project.rs:58 | `is_dir` follows a symlink: a directory denotes itself; a symlink denotes its target exactly when the target is a directory, and nothing otherwise; any other entry, or no entry, denotes nothing |
| `FileSystem.IsSymlink` | src/main.rs:57 | `is_symlink` looks at the entry itself: it holds for every symlink, whatever its target, and never for a directory, a file or a missing entry |
| `FileSystem.ReadConfig` | src/project.rs:61-65 | metadata is read only from a directory, and from the directory a symlink points to when the path is a symlink |
| `FileSystem.CreateRoot` | src/main.rs:25 | `create_dir` of a root succeeds exactly when the root does not exist yet and the environment allows it; it then leaves the root an empty directory and does not touch the other root |
| `FileSystem.CreateDir` | src/project.rs:99 | `create_dir` succeeds exactly when the root exists, nothing at all (not even a dangling symlink) is at the path, and the environment allows it; only that entry changes |
| `FileSystem.CreateSymlink` | src/project.rs:103 | `symlink` succeeds exactly when nothing is at the link path, its root exists, and the environment allows it; the link records the target and nothing else changes |
| `FileSystem.WriteConfig` | src/project.rs:112-116 | writing `.cdtest.toml` lands in the directory the path resolves to, through a symlink. It fails with no change when the path is not a directory or the file cannot be opened. A write cut short after opening leaves the truncated partial text. A complete write leaves exactly the new metadata. Nothing else changes |
| `FileSystem.RemoveDirAll` | src/project.rs:124-125 | `remove_dir_all` removes a directory, or a symlink itself without following it; it fails on a missing path or a plain file; only that entry changes |
| `Projects.Default` | src/project.rs:131-141 | the default project is unnamed, stamped now, has the 1,209,600-second retention and all three flags false |
| `Projects.Home` | src/project.rs:73-92 | home is the volatile path exactly when the project is tmp-only, else the persistent path, always named after the project |
| `Projects.Serialize` | src/project.rs:111 | serializing writes well-formed metadata holding exactly the project's name, timestamp and retention |
| `Projects.Deserialize` | src/project.rs:19-29 | parsing fails exactly on malformed content, with an error carrying that content; the skipped fields read as false; re-serializing gives the same metadata |
| `Projects.SerializeRoundTrip` | src/project.rs:11-30 | parsing a serialized project returns exactly its name, timestamp and retention, with the transient flags cleared |
| `Projects.FromProjectDir` | src/project.rs:56-70 | the error ladder in order: not a directory gives `ProjectDirectoryInvalid`, a missing or unreadable metadata file gives `ParseFailedPath` carrying `<dir>/.cdtest.toml`, and malformed metadata gives `ParseFailedToml` carrying the content; success exactly for well-formed metadata, always with the three flags false |
| `Projects.WriteOut` | src/project.rs:110-118 | saving succeeds exactly when home is a directory and both the open and the write go through. Any failure is `WriteOutFailed`. A failed open leaves the state untouched. A write cut short leaves partial text in the resolved home. Only the resolved home's metadata can change |
| `Projects.WriteOutThenLoad` | src/project.rs:110-118 | round trip: loading home after a successful save reproduces name, timestamp and retention exactly, with the flags cleared |
| `Projects.WriteOutIdempotent` | src/project.rs:110-118 | saving a second time leaves the state exactly as the first save left it |
| `Projects.WriteOutTruncatedThenLoad` | src/project.rs:113-116 | a save cut short after the file was truncated destroys the old metadata: loading home afterwards fails with `ParseFailedToml` carrying the partial text |
| `Projects.New` | src/project.rs:34-53 | the persistent load wins whenever it succeeds; the result is tmp-only exactly when the persistent load fails and the volatile load succeeds; otherwise it is a fresh project named as requested, stamped now, with the default retention; never marked existing or forced |
| `Projects.NewPrefersVar` | src/project.rs:36-40 | a name whose persistent directory holds valid metadata resolves to that metadata, whatever the volatile root holds |
| `Projects.NewFresh` | src/project.rs:47-52 | a name under neither root resolves to a fresh, non-volatile project stamped now with a two-week retention |
| `Projects.NewNameComesFromMetadata` | src/project.rs:66-69 | the loaded project's name is taken from the metadata, not from the directory it was found in |
| `Projects.Initialize` | src/project.rs:95-107 | succeeds exactly when home could be made a directory, the symlink it needs could be made, and the save is neither refused at the open nor cut short; it then returns the project re-stamped with now and otherwise unchanged, with its metadata saved in home. `ProjectSetupFailed` happens exactly when home had to be created and could not be (then nothing changes), or when the volatile path needed a symlink that could not be made; in that case a home just created stays in place. Any other failure is `WriteOutFailed`, after which home is a directory whose save was refused. Only home, the volatile path and the directory home resolves to can change |
| `Projects.InitializeSavesOnce` | src/project.rs:105 | after a successful `initialize`, saving again succeeds and leaves the state unchanged |
| `Projects.InitializeLinksTmp` | src/project.rs:101-104 | a persistent project whose volatile path was not a directory ends up with a symlink from the volatile path to its persistent home |
| `Projects.InitializeTmpOnlyKeepsVar` | src/project.rs:97-104 | a tmp-only project whose volatile path is not a symlink leaves the persistent root unchanged, whatever the outcome |
| `Projects.InitializeTmpOnlyWritesThroughSymlink` | src/project.rs:97-105 | a tmp-only project whose volatile path is a symlink to the persistent directory has its metadata written there |
| `Projects.RemoveBestEffort` | src/project.rs:124-125 | a removal whose error is ignored: only the target can change, it only disappears, and it is gone unless the environment refused |
| `Projects.GarbageCollect` | src/project.rs:121-128 | nothing changes unless strictly more than the retention has elapsed (equal elapsed time, or a future timestamp, keeps everything); only home and the volatile path can change, entries only disappear; on expiry each of the two is cleared unless its own removal is refused, so a refused removal of home does not stop the volatile one |
| `Projects.GarbageCollectExamples` | src/project.rs:122-125 | with two-week retention, a project three weeks old is cleared and one a day old is kept |
| `Cdtest.InitializeCdtest` | src/main.rs:22-33 | success exactly when each missing root can be created, and then both roots are directories; a no-op when both exist; persistent root failure gives `InitializeVarFailed` with nothing created; volatile root failure gives `InitializeTmpFailed`; existing roots are untouched |
| `Cdtest.Visit` | src/main.rs:39-67 | a child contributes exactly when it is a directory, not a volatile-root symlink, and loads; what it contributes is the loaded project, never tmp-only |
| `Cdtest.ScanRoot` | src/main.rs:36-71 | a root's scan yields at most one project per listed child, each one loaded from some contributing child, none tmp-only or existing |
| `Cdtest.ScanMembership` | src/main.rs:36-71 | a project is in a root's scan exactly when some listed child contributes it |
| `Cdtest.ScanIgnoresTmpSymlink` | src/main.rs:57-59 | deleting a volatile-root symlink does not change the volatile scan, so no project is listed through its link |
| `Cdtest.ScanFindsEveryProject` | src/main.rs:39-67 | given a listing of a root, every child that loads is found by the scan |
| `Cdtest.ScanCount` | src/main.rs:39-67 | when no name is listed twice, the scan yields exactly one project per contributing child |
| `Cdtest.ParseAllProjects` | src/main.rs:36-71 | the scan loops produce the persistent root's projects in listing order, then the volatile root's; none is tmp-only |
| `Cdtest.ProjectName` | src/main.rs:89-92 | the project name is the positional argument, `test` when it is absent |
| `Cdtest.Reconcile` | src/main.rs:97-108 | outside the gate nothing changes; through the gate tmp-only becomes exactly `--tmp`, and retention becomes the parsed `--gc` value or stays put; failure exactly for an unparsable `--gc` through the gate, as `ParseFailedTime` with that text; name, timestamp and flags are kept |
| `Cdtest.Prepare` | src/main.rs:88-108 | resolution never marks a project as existing, so the flags always apply: the result keeps the resolved name and timestamp, is tmp-only exactly when `--tmp` was given, is forced exactly when `--override` was given, and its retention is the parsed `--gc` value when given; it fails exactly on an unparsable `--gc`, with `ParseFailedTime` carrying that text |
| `Cdtest.RunProject` | src/main.rs:86-110 | a failed root bootstrap is returned as is; after a successful bootstrap and reconcile the step is exactly `initialize` of the reconciled project, so its errors and state carry through (the second save adds nothing); on success the project carries the name resolution gave, is stamped now, is tmp-only exactly when `--tmp` was given, is forced exactly when `--override` was given, is never existing, and its home is a directory holding its metadata |
| `Cdtest.CollectOthers` | src/main.rs:114-119 | the sweep changes only entries named after a scanned project that is not the current one and has expired, so the current project's paths and every live project's paths are kept; entries only disappear |
| `Cdtest.CollectOthersClears` | src/main.rs:114-119 | every other scanned project that has expired loses its home and its volatile path, each unless that removal is refused |
| `Cdtest.RunSweepsExpired` | src/main.rs:113-119 | given listings of both roots, every project that loads after the project step, is not the current one and has expired loses each of its two paths whose removal is allowed |
| `Cdtest.Run` | src/main.rs:86-119 | given listings of both roots as the project step leaves them: a failure before the scan is returned with no sweep; the outcome is that of the project step; the sweep only removes entries; the current project's entries are exactly as the project step left them, and so is every entry not named after an expired other scanned project |
| `Cdtest.RunBadDuration` | src/main.rs:97-109 | an unparsable `--gc` always fails with `ParseFailedTime` carrying the text, leaving the state as root bootstrap left it, even for a project found on disk |
| `Cdtest.RunRetention` | src/main.rs:99-107 | on success retention is the parsed `--gc` value when given, else the resolved project's |
| `Cdtest.RunDefaultName` | src/main.rs:89-92 | omitting the project name runs exactly as naming `test` |
| `Cdtest.RunProjectSavesOnce` | src/main.rs:109-110 | the save after `initialize` leaves the state exactly as `initialize` left it |
| `Cdtest.ScenarioFirstRun` | src/main.rs:86-119 | `cdtest demo` on an empty machine yields a persistent `demo` directory with two-week metadata and a volatile symlink to it |
| `Cdtest.ScenarioGcWithoutOverride` | src/main.rs:94-108 | re-entering `demo` with `--gc 1s` and no `--override` sets its retention to one second |
| `Cdtest.TmpFlagOnPersistentWritesVar` | src/project.rs:97-105 | `cdtest --tmp demo` after a first run makes `demo` tmp-only but saves its metadata into the persistent directory through the volatile symlink |
| `Cdtest.ScenarioReenterVolatile` | src/main.rs:97-109 | re-entering a volatile-only project without `--tmp` creates a persistent copy and leaves the volatile directory as it was; the scan then lists both under the same name |
| `Cdtest.StaleTwinDeletesFresh` | src/project.rs:121-128 | an expired volatile `x` next to a live persistent `x` is collected as a persistent project, so the live `x` is removed as well |
| `Cdtest.ScenarioSweepsOther` | src/main.rs:113-119 | entering `demo` removes `old`'s directory and symlink, because `old`'s one-second retention has run out, and keeps `demo`'s fresh metadata |

## Left out

- Argument parsing with clap (src/main.rs:76-84) is replaced by the `Args` record. Because `--override` is a plain flag, it always yields a value, so `force_override` is exactly the flag.
- The `humantime` duration parser is the parameter `parseDuration: string -> Option<nat>`. It is library code, not part of this repository.
- The TOML and RFC 3339 encodings are not modelled. Metadata is a `Record`, or `Malformed(content)` for text that does not parse. Because of this, `toml::to_string` never fails in the model (src/project.rs:111).
- The clock is a single `now` parameter for a whole invocation. `Default`, `initialize` and every `elapsed()` call read the same instant. Durations have no sub-second part.
- The order in which `read_dir` lists children is a parameter of the scan. `Cdtest.Run` requires each order to list exactly the children of its root, each once (`Cdtest.Lists`). A root that cannot be listed is modelled only as a missing root. Errors on single directory entries are not modelled.
- `FileSystem.Resolve`: `is_dir` follows only one symlink. A chain of symlinks counts as "not a directory".
- Project names are opaque keys. Names that path joining treats specially are not modelled: the empty name, names containing `/`, and absolute names.
- The reasons a metadata file cannot be read (missing, permissions, not UTF-8) are all one case: `Dir(None)`.
- `FileSystem.WriteConfig`: the text left by a write cut short is always read back as malformed. A prefix of the TOML text that happens to parse is not modelled.
- `FileSystem.RemoveDirAll`: a failed `remove_dir_all` leaves the entry untouched. Partial deletion is not modelled.
- Changing into the project directory, looking up `SHELL` and spawning the subshell (src/main.rs:121-127) are process I/O, so `SubprocessFailed` is never produced.
- `Error::to_string` and `Debug` (src/error.rs:17-39) only format messages.
- One `Faults` value holds for a whole invocation. A failure is decided by the path and the operation, not by when it happens. So the second `write_out` (src/main.rs:110) always succeeds once `initialize` has saved. A transient failure of that second save is not modelled: neither a refused open nor a write cut short after truncation.
- Races between concurrent invocations are not modelled. The tool has no concurrency of its own.

=== FILE: cdtest.dfy ===
/**
  The driver of cdtest: bootstrapping the two roots, scanning every known
  project, reconciling command-line settings with the resolved project, and
  one whole invocation up to the point where the shell would be launched.
*/
module Cdtest {
  import opened Options
  import opened Errors
  import opened FileSystem
  import opened Projects

  /* ---------- root bootstrap ---------- */

  /**
    `initialize_cdtest`: create whichever root is not yet a directory, the
    persistent one first. If the persistent root cannot be created the
    volatile one is not attempted.
  */
  function InitializeCdtest(fs: Fs, faults: Faults): (e: Effect<()>)
    ensures e.result.Ok? <==> (RootIsDir(fs, Var) || Var !in faults.rootCreate) && (RootIsDir(fs, Tmp) || Tmp !in faults.rootCreate)
    ensures e.result.Ok? ==> RootIsDir(e.fs, Var) && RootIsDir(e.fs, Tmp)
    ensures RootIsDir(fs, Var) && RootIsDir(fs, Tmp) ==> e == Effect(fs, Ok(()))
    ensures !RootIsDir(fs, Var) && Var in faults.rootCreate ==> e == Effect(fs, Err(InitializeVarFailed))
    ensures (RootIsDir(fs, Var) || Var !in faults.rootCreate) && !RootIsDir(fs, Tmp) && Tmp in faults.rootCreate
            ==> e.result == Err(InitializeTmpFailed) && RootIsDir(e.fs, Var)
    ensures forall r :: RootIsDir(fs, r) ==> RootOf(e.fs, r) == RootOf(fs, r)
  {
    var madeVar := if RootIsDir(fs, Var) then IoOk(fs) else CreateRoot(fs, faults, Var);
    match madeVar
    case IoErr => Effect(fs, Err(InitializeVarFailed))
    case IoOk(fs1) =>
      var madeTmp := if RootIsDir(fs1, Tmp) then IoOk(fs1) else CreateRoot(fs1, faults, Tmp);
      match madeTmp
      case IoErr => Effect(fs1, Err(InitializeTmpFailed))
      case IoOk(fs2) => Effect(fs2, Ok(()))
  }

  /* ---------- registry scan ---------- */

  /**
    What the scan takes from child `n` of root `r`: nothing for a volatile-root
    symlink (it mirrors a persistent project), nothing for a non-directory,
    nothing for a directory that does not load, else the loaded project.
  */
  function Visit(fs: Fs, r: RootId, n: string): (v: Option<Project>)
    ensures v.Some? <==> IsDir(fs, Path(r, n)) && !(r == Tmp && IsSymlink(fs, Path(r, n))) && FromProjectDir(fs, Path(r, n)).Ok?
    ensures v.Some? ==> Ok(v.value) == FromProjectDir(fs, Path(r, n)) && !v.value.tmpOnly
  {
    var path := Path(r, n);
    if r == Tmp && IsSymlink(fs, path) then None
    else if !IsDir(fs, path) then None
    else match FromProjectDir(fs, path)
      case Ok(p) => Some(p)
      case Err(_) => None
  }

  /**
    The projects found in root `r` when its children are enumerated in the
    order `names`; entries that do not load are dropped silently.
  */
  function ScanRoot(fs: Fs, r: RootId, names: seq<string>): (ps: seq<Project>)
    ensures |ps| <= |names|
    ensures forall k :: 0 <= k < |ps| ==> exists i :: 0 <= i < |names| && Visit(fs, r, names[i]) == Some(ps[k])
    ensures forall k :: 0 <= k < |ps| ==> !ps[k].tmpOnly && !ps[k].existing
    decreases |names|
  {
    if names == [] then []
    else
      var rest := ScanRoot(fs, r, names[..|names| - 1]);
      match Visit(fs, r, names[|names| - 1])
      case Some(p) => rest + [p]
      case None => rest
  }

  /** No name is enumerated twice. */
  predicate Distinct(names: seq<string>)
  {
    forall i, j :: 0 <= i < j < |names| ==> names[i] != names[j]
  }

  /**
    `names` is a directory listing of root `r`, as `read_dir` yields one:
    every child exactly once, in some order, and nothing else. A missing
    root lists nothing.
  */
  ghost predicate Lists(fs: Fs, r: RootId, names: seq<string>)
  {
    && Distinct(names)
    && (forall n :: n in names <==> Lookup(fs, Path(r, n)).Some?)
  }

  /** The enumerated children that contribute a project to the scan. */
  function Contributing(fs: Fs, r: RootId, names: seq<string>): set<string>
  {
    set n | n in names && Visit(fs, r, n).Some?
  }

  /** With a full listing, every child that loads is found by the scan. */
  lemma ScanFindsEveryProject(fs: Fs, r: RootId, names: seq<string>, n: string)
    requires Lists(fs, r, names)
    requires Visit(fs, r, n).Some?
    ensures Visit(fs, r, n).value in ScanRoot(fs, r, names)
  {
    assert n in names;
    var i :| 0 <= i < |names| && names[i] == n;
    ScanMembership(fs, r, names, Visit(fs, r, n).value);
  }

  /** Extending a listing by one name adds that name to the contributors exactly when it contributes. */
  lemma ContributingSnoc(fs: Fs, r: RootId, init: seq<string>, m: string)
    ensures Contributing(fs, r, init + [m]) == Contributing(fs, r, init) + if Visit(fs, r, m).Some? then {m} else {}
  {
    var names := init + [m];
    forall n | n in names
      ensures n in init || n == m
    {
      var i :| 0 <= i < |names| && names[i] == n;
      if i < |init| {
        assert init[i] == n;
      }
    }
  }

  /** The last name of a listing without repeats is not among the earlier ones. */
  lemma DistinctLast(names: seq<string>)
    requires Distinct(names) && names != []
    ensures Distinct(names[..|names| - 1])
    ensures names[|names| - 1] !in names[..|names| - 1]
  {
  }

  /** With no name enumerated twice, each contributing child yields exactly one project. */
  lemma {:induction false} ScanCount(fs: Fs, r: RootId, names: seq<string>)
    requires Distinct(names)
    ensures |ScanRoot(fs, r, names)| == |Contributing(fs, r, names)|
    decreases |names|
  {
    if names == [] {
      assert Contributing(fs, r, names) == {};
    } else {
      var init := names[..|names| - 1];
      var m := names[|names| - 1];
      DistinctLast(names);
      ScanCount(fs, r, init);
      assert names == init + [m];
      ContributingSnoc(fs, r, init, m);
    }
  }

  /** Everything the scan finds: the persistent root's projects, then the volatile root's. */
  function ScanAll(fs: Fs, varOrder: seq<string>, tmpOrder: seq<string>): seq<Project>
  {
    ScanRoot(fs, Var, varOrder) + ScanRoot(fs, Tmp, tmpOrder)
  }

  /** A project is in the scan of a root exactly when some enumerated child loads as it. */
  lemma {:induction false} ScanMembership(fs: Fs, r: RootId, names: seq<string>, x: Project)
    ensures x in ScanRoot(fs, r, names) <==> exists i :: 0 <= i < |names| && Visit(fs, r, names[i]) == Some(x)
    decreases |names|
  {
    if names != [] {
      var init := names[..|names| - 1];
      ScanMembership(fs, r, init, x);
      if exists i :: 0 <= i < |names| && Visit(fs, r, names[i]) == Some(x) {
        var i :| 0 <= i < |names| && Visit(fs, r, names[i]) == Some(x);
        if i < |init| {
          assert init[i] == names[i];
        }
      }
      if exists i :: 0 <= i < |init| && Visit(fs, r, init[i]) == Some(x) {
        var i :| 0 <= i < |init| && Visit(fs, r, init[i]) == Some(x);
        assert names[i] == init[i];
      }
    }
  }

  /**
    A symlink in the volatile root never contributes: removing it leaves the
    volatile scan unchanged, so a persistent project is not listed a second
    time through its link.
  */
  lemma {:induction false} ScanIgnoresTmpSymlink(fs: Fs, n: string, names: seq<string>)
    requires IsSymlink(fs, Path(Tmp, n))
    ensures ScanRoot(fs, Tmp, names) == ScanRoot(Drop(fs, Path(Tmp, n)), Tmp, names)
    decreases |names|
  {
    if names != [] {
      ScanIgnoresTmpSymlink(fs, n, names[..|names| - 1]);
      var m := names[|names| - 1];
      var fs' := Drop(fs, Path(Tmp, n));
      if m != n {
        assert Lookup(fs', Path(Tmp, m)) == Lookup(fs, Path(Tmp, m));
        if !IsSymlink(fs, Path(Tmp, m)) && IsDir(fs, Path(Tmp, m)) {
          assert Resolve(fs, Path(Tmp, m)) == Some(Path(Tmp, m));
          assert Resolve(fs', Path(Tmp, m)) == Some(Path(Tmp, m));
        }
      }
    }
  }

  /**
    `parse_all_projects`: walk the persistent root's children, then the
    volatile root's, keeping each project that loads. It never fails.
  */
  method ParseAllProjects(fs: Fs, varOrder: seq<string>, tmpOrder: seq<string>) returns (all: seq<Project>)
    ensures all == ScanAll(fs, varOrder, tmpOrder)
    ensures forall k :: 0 <= k < |all| ==> !all[k].tmpOnly
  {
    all := [];
    var i := 0;
    while i < |varOrder|
      invariant 0 <= i <= |varOrder|
      invariant all == ScanRoot(fs, Var, varOrder[..i])
    {
      var path := Path(Var, varOrder[i]);
      if IsDir(fs, path) {
        var loaded := FromProjectDir(fs, path);
        if loaded.Ok? {
          all := all + [loaded.value];
        }
      }
      assert varOrder[..i + 1][..i] == varOrder[..i];
      i := i + 1;
    }
    assert varOrder[..i] == varOrder;
    var fromVar := all;
    var j := 0;
    while j < |tmpOrder|
      invariant 0 <= j <= |tmpOrder|
      invariant all == fromVar + ScanRoot(fs, Tmp, tmpOrder[..j])
    {
      var path := Path(Tmp, tmpOrder[j]);
      if !IsSymlink(fs, path) && IsDir(fs, path) {
        var loaded := FromProjectDir(fs, path);
        if loaded.Ok? {
          all := all + [loaded.value];
        }
      }
      assert tmpOrder[..j + 1][..j] == tmpOrder[..j];
      j := j + 1;
    }
    assert tmpOrder[..j] == tmpOrder;
  }

  /* ---------- one invocation ---------- */

  /** The command line, already split into its four inputs. */
  datatype Args = Args(override: bool, tmp: bool, gc: Option<string>, project: Option<string>)

  /** The project to enter: the positional argument, `test` when absent. */
  function ProjectName(args: Args): (n: string)
    ensures args.project.None? ==> n == "test"
    ensures args.project.Some? ==> n == args.project.value
  {
    match args.project
    case Some(name) => name
    case None => "test"
  }

  /** Whether command-line settings replace the project's own: when forced, or for a project that did not exist. */
  predicate OverrideGate(p: Project)
  {
    p.forceOverride || !p.existing
  }

  /**
    Applying `--tmp` and `--gc` to a resolved project. Through the gate, the
    placement becomes exactly the `--tmp` flag and the retention becomes the
    parsed `--gc` value if one was given; a `--gc` text that does not parse
    is an error carrying that text. Outside the gate nothing changes.
  */
  function Reconcile(p: Project, tmp: bool, gc: Option<string>, parseDuration: string -> Option<nat>): (r: Result<Project>)
    ensures !OverrideGate(p) ==> r == Ok(p)
    ensures r.Err? <==> OverrideGate(p) && gc.Some? && parseDuration(gc.value).None?
    ensures r.Err? ==> r.error == ParseFailedTime(gc.value)
    ensures r.Ok? ==> r.value.name == p.name && r.value.timestamp == p.timestamp
    ensures r.Ok? ==> r.value.forceOverride == p.forceOverride && r.value.existing == p.existing
    ensures r.Ok? && OverrideGate(p) ==> r.value.tmpOnly == tmp
    ensures r.Ok? && OverrideGate(p) && gc.Some? ==> r.value.garbageCollection == parseDuration(gc.value).value
    ensures r.Ok? && gc.None? ==> r.value.garbageCollection == p.garbageCollection
  {
    if !OverrideGate(p) then Ok(p)
    else match gc
      case None => Ok(p.(tmpOnly := tmp))
      case Some(text) =>
        match parseDuration(text)
        case None => Err(ParseFailedTime(text))
        case Some(d) => Ok(p.(tmpOnly := tmp, garbageCollection := d))
  }

  /**
    The project resolved for this invocation and reconciled with the command
    line. Since resolution never marks a project as existing, the flags always
    apply: the placement is `--tmp`, the retention is `--gc` when given, and
    only an unparsable `--gc` fails.
  */
  function Prepare(fs: Fs, args: Args, now: int, parseDuration: string -> Option<nat>): (r: Result<Project>)
    ensures r.Err? <==> args.gc.Some? && parseDuration(args.gc.value).None?
    ensures r.Err? ==> r.error == ParseFailedTime(args.gc.value)
    ensures r.Ok? ==> r.value.name == New(fs, ProjectName(args), now).name
    ensures r.Ok? ==> r.value.timestamp == New(fs, ProjectName(args), now).timestamp
    ensures r.Ok? ==> r.value.tmpOnly == args.tmp && r.value.forceOverride == args.override && !r.value.existing
    ensures r.Ok? ==> r.value.garbageCollection
                      == if args.gc.Some? then parseDuration(args.gc.value).value else New(fs, ProjectName(args), now).garbageCollection
  {
    var loaded := New(fs, ProjectName(args), now);
    Reconcile(loaded.(forceOverride := args.override), args.tmp, args.gc, parseDuration)
  }

  /**
    The first half of an invocation: bootstrap the roots, resolve and
    reconcile the project, initialize it and save it once more.
  */
  function RunProject(fs: Fs, faults: Faults, args: Args, now: int, parseDuration: string -> Option<nat>): (e: Effect<Project>)
    ensures InitializeCdtest(fs, faults).result.Err? ==>
      e == Effect(InitializeCdtest(fs, faults).fs, Err(InitializeCdtest(fs, faults).result.error))
    ensures var fs1 := InitializeCdtest(fs, faults).fs;
      InitializeCdtest(fs, faults).result.Ok? && Prepare(fs1, args, now, parseDuration).Ok? ==>
        e == Initialize(fs1, faults, Prepare(fs1, args, now, parseDuration).value, now)
    ensures e.result.Ok? ==> e.result.value.name == New(InitializeCdtest(fs, faults).fs, ProjectName(args), now).name
    ensures e.result.Ok? ==> e.result.value.timestamp == now && e.result.value.tmpOnly == args.tmp
    ensures e.result.Ok? ==> e.result.value.forceOverride == args.override && !e.result.value.existing
    ensures e.result.Ok? ==> IsDir(e.fs, Home(e.result.value))
    ensures e.result.Ok? ==> ReadConfig(e.fs, Home(e.result.value)) == Some(Serialize(e.result.value))
  {
    var roots := InitializeCdtest(fs, faults);
    if roots.result.Err? then Effect(roots.fs, Err(roots.result.error))
    else
      match Prepare(roots.fs, args, now, parseDuration)
      case Err(err) => Effect(roots.fs, Err(err))
      case Ok(p) =>
        var init := Initialize(roots.fs, faults, p, now);
        match init.result
        case Err(err) => Effect(init.fs, Err(err))
        case Ok(p') =>
          InitializeSavesOnce(roots.fs, faults, p, now);
          var saved := WriteOut(init.fs, faults, p');
          match saved.result
          case Err(err) => Effect(saved.fs, Err(err))
          case Ok(_) =>
            WriteOutThenLoad(init.fs, faults, p');
            Effect(saved.fs, Ok(p'))
  }

  /**
    The names the sweep may touch: those of scanned projects, other than the
    current one, that have expired. Paths are matched by name, so an expired
    project can take with it a live one of the same name in the other root.
  */
  function Swept(ps: seq<Project>, current: string, now: int): (names: set<string>)
    ensures current !in names
  {
    set k | 0 <= k < |ps| && ps[k].name != current && Expired(ps[k], now) :: ps[k].name
  }

  /**
    The sweep: garbage-collect every scanned project whose name differs from
    the current project's. Only the two paths named after an expired such
    project can change, so the current project's own paths and every other
    live project's paths are never touched.
  */
  function CollectOthers(fs: Fs, faults: Faults, ps: seq<Project>, current: string, now: int): (fs': Fs)
    ensures forall r :: RootIsDir(fs', r) == RootIsDir(fs, r)
    ensures forall q: Path :: q.name !in Swept(ps, current, now) ==> Lookup(fs', q) == Lookup(fs, q)
    ensures forall q :: Lookup(fs', q).None? || Lookup(fs', q) == Lookup(fs, q)
    decreases |ps|
  {
    if ps == [] then fs
    else
      var fs1 := if ps[0].name != current then GarbageCollect(fs, faults, ps[0], now) else fs;
      assert Swept(ps[1..], current, now) <= Swept(ps, current, now) by {
        forall n | n in Swept(ps[1..], current, now)
          ensures n in Swept(ps, current, now)
        {
          var k :| 0 <= k < |ps[1..]| && ps[1..][k].name != current && Expired(ps[1..][k], now) && ps[1..][k].name == n;
          assert ps[k + 1] == ps[1..][k];
        }
      }
      assert forall q: Path :: q.name !in Swept(ps, current, now) ==> Lookup(fs1, q) == Lookup(fs, q) by {
        if ps[0].name != current && Expired(ps[0], now) {
          assert ps[0].name in Swept(ps, current, now);
        }
      }
      CollectOthers(fs1, faults, ps[1..], current, now)
  }

  /** Every other expired project loses each of its paths whose removal the environment allows. */
  lemma {:induction false} CollectOthersClears(fs: Fs, faults: Faults, ps: seq<Project>, current: string, now: int, k: nat)
    requires k < |ps| && ps[k].name != current
    requires Expired(ps[k], now)
    ensures Home(ps[k]) !in faults.remove ==> Cleared(CollectOthers(fs, faults, ps, current, now), Home(ps[k]))
    ensures TmpHome(ps[k]) !in faults.remove ==> Cleared(CollectOthers(fs, faults, ps, current, now), TmpHome(ps[k]))
    decreases |ps|
  {
    var fs1 := if ps[0].name != current then GarbageCollect(fs, faults, ps[0], now) else fs;
    if k > 0 {
      assert ps[1..][k - 1] == ps[k];
      CollectOthersClears(fs1, faults, ps[1..], current, now, k - 1);
    }
  }

  /**
    One invocation, up to launching the shell: run the project half, then
    scan both roots (children enumerated in `varOrder` and `tmpOrder`) and
    sweep every other project. A failure in the project half ends the run
    before anything is scanned or collected. The two orders are listings of
    the roots as the project half leaves them.
  */
  function Run(fs: Fs, faults: Faults, args: Args, now: int, parseDuration: string -> Option<nat>,
               varOrder: seq<string>, tmpOrder: seq<string>): (e: Effect<Project>)
    requires RunProject(fs, faults, args, now, parseDuration).result.Ok? ==>
      Lists(RunProject(fs, faults, args, now, parseDuration).fs, Var, varOrder) &&
      Lists(RunProject(fs, faults, args, now, parseDuration).fs, Tmp, tmpOrder)
    ensures RunProject(fs, faults, args, now, parseDuration).result.Err? ==> e == RunProject(fs, faults, args, now, parseDuration)
    ensures e.result == RunProject(fs, faults, args, now, parseDuration).result
    ensures e.result.Ok? ==> forall r :: Lookup(e.fs, Path(r, e.result.value.name)) == Lookup(RunProject(fs, faults, args, now, parseDuration).fs, Path(r, e.result.value.name))
    ensures e.result.Ok? ==> forall q :: Lookup(e.fs, q).None? || Lookup(e.fs, q) == Lookup(RunProject(fs, faults, args, now, parseDuration).fs, q)
    ensures e.result.Ok? ==>
      var first := RunProject(fs, faults, args, now, parseDuration);
      forall q: Path :: q.name !in Swept(ScanAll(first.fs, varOrder, tmpOrder), e.result.value.name, now)
        ==> Lookup(e.fs, q) == Lookup(first.fs, q)
  {
    var first := RunProject(fs, faults, args, now, parseDuration);
    match first.result
    case Err(_) => first
    case Ok(p) => Effect(CollectOthers(first.fs, faults, ScanAll(first.fs, varOrder, tmpOrder), p.name, now), Ok(p))
  }

  /**
    The sweep is complete: any project that loads from either root as the
    project half leaves it, other than the current one and past its retention,
    loses each of its paths whose removal the environment allows.
  */
  lemma RunSweepsExpired(fs: Fs, faults: Faults, args: Args, now: int, parseDuration: string -> Option<nat>,
                         varOrder: seq<string>, tmpOrder: seq<string>, r: RootId, n: string)
    requires RunProject(fs, faults, args, now, parseDuration).result.Ok?
    requires Lists(RunProject(fs, faults, args, now, parseDuration).fs, Var, varOrder)
    requires Lists(RunProject(fs, faults, args, now, parseDuration).fs, Tmp, tmpOrder)
    requires var first := RunProject(fs, faults, args, now, parseDuration);
      && Visit(first.fs, r, n).Some?
      && Visit(first.fs, r, n).value.name != first.result.value.name
      && Expired(Visit(first.fs, r, n).value, now)
    ensures var q := Visit(RunProject(fs, faults, args, now, parseDuration).fs, r, n).value;
      var e := Run(fs, faults, args, now, parseDuration, varOrder, tmpOrder);
      && (Home(q) !in faults.remove ==> Cleared(e.fs, Home(q)))
      && (TmpHome(q) !in faults.remove ==> Cleared(e.fs, TmpHome(q)))
  {
    var first := RunProject(fs, faults, args, now, parseDuration);
    var q := Visit(first.fs, r, n).value;
    var order := if r == Var then varOrder else tmpOrder;
    ScanFindsEveryProject(first.fs, r, order, n);
    var scanned := ScanAll(first.fs, varOrder, tmpOrder);
    assert q in scanned;
    var k :| 0 <= k < |scanned| && scanned[k] == q;
    CollectOthersClears(first.fs, faults, scanned, first.result.value.name, now, k);
  }

  /**
    Resolution never marks a project as existing, so the gate is always open:
    an unparsable `--gc` ends the run with `ParseFailedTime` carrying that
    exact text even for a project found on disk, and the project step leaves
    the filesystem as root bootstrap left it.
  */
  lemma RunBadDuration(fs: Fs, faults: Faults, args: Args, now: int, parseDuration: string -> Option<nat>,
                       varOrder: seq<string>, tmpOrder: seq<string>)
    requires InitializeCdtest(fs, faults).result.Ok?
    requires args.gc.Some? && parseDuration(args.gc.value).None?
    ensures Run(fs, faults, args, now, parseDuration, varOrder, tmpOrder)
         == Effect(InitializeCdtest(fs, faults).fs, Err(ParseFailedTime(args.gc.value)))
  {
  }

  /** On success the retention is the parsed `--gc` value when one was given, else the resolved project's. */
  lemma RunRetention(fs: Fs, faults: Faults, args: Args, now: int, parseDuration: string -> Option<nat>)
    requires RunProject(fs, faults, args, now, parseDuration).result.Ok?
    ensures var p := RunProject(fs, faults, args, now, parseDuration).result.value;
      && (args.gc.Some? ==> p.garbageCollection == parseDuration(args.gc.value).value)
      && (args.gc.None? ==> p.garbageCollection == New(InitializeCdtest(fs, faults).fs, ProjectName(args), now).garbageCollection)
  {
  }

  /** Leaving out the project name is the same as naming it `test`. */
  lemma RunDefaultName(fs: Fs, faults: Faults, args: Args, now: int, parseDuration: string -> Option<nat>,
                       varOrder: seq<string>, tmpOrder: seq<string>)
    requires args.project.None?
    requires RunProject(fs, faults, args, now, parseDuration).result.Ok? ==>
      Lists(RunProject(fs, faults, args, now, parseDuration).fs, Var, varOrder) &&
      Lists(RunProject(fs, faults, args, now, parseDuration).fs, Tmp, tmpOrder)
    ensures RunProject(fs, faults, args.(project := Some("test")), now, parseDuration) == RunProject(fs, faults, args, now, parseDuration)
    ensures Run(fs, faults, args, now, parseDuration, varOrder, tmpOrder)
         == Run(fs, faults, args.(project := Some("test")), now, parseDuration, varOrder, tmpOrder)
  {
    var named := args.(project := Some("test"));
    assert ProjectName(named) == ProjectName(args);
    var fs1 := InitializeCdtest(fs, faults).fs;
    assert Prepare(fs1, named, now, parseDuration) == Prepare(fs1, args, now, parseDuration);
    assert RunProject(fs, faults, named, now, parseDuration) == RunProject(fs, faults, args, now, parseDuration);
  }

  /** The save that follows `initialize` in the driver changes nothing: the state is the one `initialize` left. */
  lemma RunProjectSavesOnce(fs: Fs, faults: Faults, args: Args, now: int, parseDuration: string -> Option<nat>)
    requires RunProject(fs, faults, args, now, parseDuration).result.Ok?
    ensures var fs1 := InitializeCdtest(fs, faults).fs;
      RunProject(fs, faults, args, now, parseDuration).fs
        == Initialize(fs1, faults, Prepare(fs1, args, now, parseDuration).value, now).fs
  {
    var fs1 := InitializeCdtest(fs, faults).fs;
    InitializeSavesOnce(fs1, faults, Prepare(fs1, args, now, parseDuration).value, now);
  }

  /** A first invocation of `cdtest demo` on an empty machine. */
  lemma ScenarioFirstRun(parseDuration: string -> Option<nat>)
    ensures
      var e := Run(Fs(Missing, Missing), NoFaults, Args(false, false, None, Some("demo")), 1000, parseDuration, ["demo"], ["demo"]);
      && e.result == Ok(Project("demo", 1000, false, 1209600, false, false))
      && e.fs == Fs(Present(map["demo" := Dir(Some(Toml(Record("demo", 1000, 1209600))))]),
                    Present(map["demo" := Symlink(Path(Var, "demo"))]))
  {
    var fs0 := Fs(Missing, Missing);
    var args := Args(false, false, None, Some("demo"));
    var fs1 := Fs(Present(map[]), Present(map[]));
    assert InitializeCdtest(fs0, NoFaults) == Effect(fs1, Ok(()));
    assert New(fs1, "demo", 1000) == Project("demo", 1000, false, 1209600, false, false);
    var fs2 := Fs(Present(map["demo" := Dir(Some(Toml(Record("demo", 1000, 1209600))))]),
                  Present(map["demo" := Symlink(Path(Var, "demo"))]));
    var p := Project("demo", 1000, false, 1209600, false, false);
    assert Initialize(fs1, NoFaults, p, 1000) == Effect(fs2, Ok(p));
    assert RunProject(fs0, NoFaults, args, 1000, parseDuration) == Effect(fs2, Ok(p));
    assert ScanRoot(fs2, Var, ["demo"]) == [p];
    assert ScanRoot(fs2, Tmp, ["demo"]) == [];
    assert ScanAll(fs2, ["demo"], ["demo"]) == [p];
    assert CollectOthers(fs2, NoFaults, [p], "demo", 1000) == CollectOthers(fs2, NoFaults, [], "demo", 1000);
  }

  /**
    A second invocation `cdtest --gc 1s demo` without `--override`: the
    retention becomes one second, because a loaded project is never marked
    as existing.
  */
  lemma ScenarioGcWithoutOverride(parseDuration: string -> Option<nat>)
    requires parseDuration("1s") == Some(1)
    ensures
      var fs := Fs(Present(map["demo" := Dir(Some(Toml(Record("demo", 1000, 1209600))))]),
                   Present(map["demo" := Symlink(Path(Var, "demo"))]));
      var e := RunProject(fs, NoFaults, Args(false, false, Some("1s"), Some("demo")), 2000, parseDuration);
      e.result == Ok(Project("demo", 2000, false, 1, false, false))
  {
    var fs := Fs(Present(map["demo" := Dir(Some(Toml(Record("demo", 1000, 1209600))))]),
                 Present(map["demo" := Symlink(Path(Var, "demo"))]));
    assert InitializeCdtest(fs, NoFaults) == Effect(fs, Ok(()));
    assert New(fs, "demo", 2000) == Project("demo", 1000, false, 1209600, false, false);
  }

  /**
    Re-entering a volatile-only project `x` without `--tmp`: a new persistent
    `x` is created holding the volatile one's settings, while the volatile
    directory, already a directory, is neither linked nor rewritten. Both
    are then listed by the scan as projects named `x`.
  */
  lemma ScenarioReenterVolatile(parseDuration: string -> Option<nat>)
    ensures
      var fs := Fs(Present(map[]), Present(map["x" := Dir(Some(Toml(Record("x", 1000, 60))))]));
      var e := RunProject(fs, NoFaults, Args(false, false, None, Some("x")), 2000, parseDuration);
      && e.result == Ok(Project("x", 2000, false, 60, false, false))
      && e.fs == Fs(Present(map["x" := Dir(Some(Toml(Record("x", 2000, 60))))]),
                    Present(map["x" := Dir(Some(Toml(Record("x", 1000, 60))))]))
      && ScanAll(e.fs, ["x"], ["x"]) == [Project("x", 2000, false, 60, false, false), Project("x", 1000, false, 60, false, false)]
  {
    var fs := Fs(Present(map[]), Present(map["x" := Dir(Some(Toml(Record("x", 1000, 60))))]));
    assert InitializeCdtest(fs, NoFaults) == Effect(fs, Ok(()));
    assert New(fs, "x", 2000) == Project("x", 1000, false, 60, true, false);
    var p := Project("x", 2000, false, 60, false, false);
    var fs' := Fs(Present(map["x" := Dir(Some(Toml(Record("x", 2000, 60))))]),
                  Present(map["x" := Dir(Some(Toml(Record("x", 1000, 60))))]));
    assert Initialize(fs, NoFaults, p, 2000) == Effect(fs', Ok(p));
    assert WriteOut(fs', NoFaults, p) == Effect(fs', Ok(()));
  }

  /**
    `cdtest --tmp demo` after a first `cdtest demo`: the project becomes
    tmp-only, yet its volatile path is the usual symlink to `var/demo`, so
    its metadata is saved into the persistent directory.
  */
  lemma TmpFlagOnPersistentWritesVar(parseDuration: string -> Option<nat>)
    ensures
      var fs := Fs(Present(map["demo" := Dir(Some(Toml(Record("demo", 1000, 1209600))))]),
                   Present(map["demo" := Symlink(Path(Var, "demo"))]));
      var e := RunProject(fs, NoFaults, Args(false, true, None, Some("demo")), 2000, parseDuration);
      && e.result == Ok(Project("demo", 2000, false, 1209600, true, false))
      && e.fs == Fs(Present(map["demo" := Dir(Some(Toml(Record("demo", 2000, 1209600))))]),
                    Present(map["demo" := Symlink(Path(Var, "demo"))]))
  {
    var fs := Fs(Present(map["demo" := Dir(Some(Toml(Record("demo", 1000, 1209600))))]),
                 Present(map["demo" := Symlink(Path(Var, "demo"))]));
    assert InitializeCdtest(fs, NoFaults) == Effect(fs, Ok(()));
    assert New(fs, "demo", 2000) == Project("demo", 1000, false, 1209600, false, false);
    var p := Project("demo", 2000, false, 1209600, true, false);
    var fs' := Fs(Present(map["demo" := Dir(Some(Toml(Record("demo", 2000, 1209600))))]),
                  Present(map["demo" := Symlink(Path(Var, "demo"))]));
    assert Initialize(fs, NoFaults, p, 2000) == Effect(fs', Ok(p));
  }

  /** Fixture: a live persistent `x` and an expired volatile directory also named `x`. */
  const Twins := Fs(
    Present(map["x" := Dir(Some(Toml(Record("x", 2000, 1209600))))]),
    Present(map["x" := Dir(Some(Toml(Record("x", 0, 1))))]))

  /**
    Paths are matched by name: the expired volatile `x` loads as a persistent
    project, so collecting it removes the live persistent `x` as well.
  */
  lemma StaleTwinDeletesFresh()
    ensures
      var ps := ScanAll(Twins, ["x"], ["x"]);
      && ps == [Project("x", 2000, false, 1209600, false, false), Project("x", 0, false, 1, false, false)]
      && !Expired(ps[0], 3000) && Expired(ps[1], 3000)
      && var fs' := CollectOthers(Twins, NoFaults, ps, "demo", 3000);
         Lookup(fs', Path(Var, "x")).None? && Lookup(fs', Path(Tmp, "x")).None?
  {
    TwinScan();
    TwinSweep();
  }

  lemma TwinScan()
    ensures ScanAll(Twins, ["x"], ["x"]) == [Project("x", 2000, false, 1209600, false, false), Project("x", 0, false, 1, false, false)]
  {
    assert ScanRoot(Twins, Var, ["x"]) == [Project("x", 2000, false, 1209600, false, false)];
    assert ScanRoot(Twins, Tmp, ["x"]) == [Project("x", 0, false, 1, false, false)];
  }

  lemma TwinSweep()
    ensures var fs' := CollectOthers(Twins, NoFaults, [Project("x", 2000, false, 1209600, false, false), Project("x", 0, false, 1, false, false)], "demo", 3000);
      Lookup(fs', Path(Var, "x")).None? && Lookup(fs', Path(Tmp, "x")).None?
  {
    var ps := [Project("x", 2000, false, 1209600, false, false), Project("x", 0, false, 1, false, false)];
    CollectOthersClears(Twins, NoFaults, ps, "demo", 3000, 1);
  }


  /** Fixture: `demo` (persistent, linked) and `old`, touched at 997 with a one-second retention. */
  const SweepBefore := Fs(
    Present(map["demo" := Dir(Some(Toml(Record("demo", 900, 1209600)))), "old" := Dir(Some(Toml(Record("old", 997, 1))))]),
    Present(map["demo" := Symlink(Path(Var, "demo")), "old" := Symlink(Path(Var, "old"))]))

  /** Fixture: the same machine once `demo` has been re-stamped at 1000. */
  const SweepStamped := Fs(
    Present(map["demo" := Dir(Some(Toml(Record("demo", 1000, 1209600)))), "old" := Dir(Some(Toml(Record("old", 997, 1))))]),
    Present(map["demo" := Symlink(Path(Var, "demo")), "old" := Symlink(Path(Var, "old"))]))

  lemma SweepProjectStep(parseDuration: string -> Option<nat>)
    ensures RunProject(SweepBefore, NoFaults, Args(false, false, None, Some("demo")), 1000, parseDuration)
         == Effect(SweepStamped, Ok(Project("demo", 1000, false, 1209600, false, false)))
  {
    assert InitializeCdtest(SweepBefore, NoFaults) == Effect(SweepBefore, Ok(()));
    assert New(SweepBefore, "demo", 1000) == Project("demo", 900, false, 1209600, false, false);
    var p := Project("demo", 1000, false, 1209600, false, false);
    assert Initialize(SweepBefore, NoFaults, p, 1000) == Effect(SweepStamped, Ok(p));
    assert WriteOut(SweepStamped, NoFaults, p) == Effect(SweepStamped, Ok(()));
  }

  lemma SweepListed()
    ensures Lists(SweepStamped, Var, ["demo", "old"]) && Lists(SweepStamped, Tmp, ["demo", "old"])
  {
  }

  lemma SweepScan()
    ensures ScanAll(SweepStamped, ["demo", "old"], ["demo", "old"])
         == [Project("demo", 1000, false, 1209600, false, false), Project("old", 997, false, 1, false, false)]
  {
    assert ["demo", "old"][..1] == ["demo"];
    assert ScanRoot(SweepStamped, Var, ["demo"]) == [Project("demo", 1000, false, 1209600, false, false)];
    assert ScanRoot(SweepStamped, Tmp, ["demo"]) == [];
  }

  lemma SweepOutcome()
    ensures var swept := CollectOthers(SweepStamped, NoFaults, ScanAll(SweepStamped, ["demo", "old"], ["demo", "old"]), "demo", 1000);
      && Lookup(swept, Path(Var, "old")).None? && Lookup(swept, Path(Tmp, "old")).None?
      && Lookup(swept, Path(Var, "demo")) == Some(Dir(Some(Toml(Record("demo", 1000, 1209600)))))
  {
    SweepScan();
    SweepCollect();
  }

  lemma SweepCollect()
    ensures var swept := CollectOthers(SweepStamped, NoFaults, [Project("demo", 1000, false, 1209600, false, false), Project("old", 997, false, 1, false, false)], "demo", 1000);
      && Lookup(swept, Path(Var, "old")).None? && Lookup(swept, Path(Tmp, "old")).None?
      && Lookup(swept, Path(Var, "demo")) == Some(Dir(Some(Toml(Record("demo", 1000, 1209600)))))
  {
    var scanned := [Project("demo", 1000, false, 1209600, false, false), Project("old", 997, false, 1, false, false)];
    CollectOthersClears(SweepStamped, NoFaults, scanned, "demo", 1000, 1);
    assert Lookup(SweepStamped, Path(Var, "old")) == Some(Dir(Some(Toml(Record("old", 997, 1)))));
    assert Lookup(SweepStamped, Path(Tmp, "old")) == Some(Symlink(Path(Var, "old")));
  }

  lemma SweepRun(parseDuration: string -> Option<nat>)
    ensures RunProject(SweepBefore, NoFaults, Args(false, false, None, Some("demo")), 1000, parseDuration).fs == SweepStamped
    ensures Lists(SweepStamped, Var, ["demo", "old"]) && Lists(SweepStamped, Tmp, ["demo", "old"])
    ensures Run(SweepBefore, NoFaults, Args(false, false, None, Some("demo")), 1000, parseDuration, ["demo", "old"], ["demo", "old"])
         == Effect(CollectOthers(SweepStamped, NoFaults, ScanAll(SweepStamped, ["demo", "old"], ["demo", "old"]), "demo", 1000),
                   Ok(Project("demo", 1000, false, 1209600, false, false)))
  {
    SweepProjectStep(parseDuration);
    SweepListed();
  }

  /**
    An invocation for `demo` sweeps `old`, last touched three seconds ago
    with a one-second retention: its directory and its symlink are removed,
    while `demo` keeps its freshly written metadata.
  */
  lemma ScenarioSweepsOther(parseDuration: string -> Option<nat>)
    ensures RunProject(SweepBefore, NoFaults, Args(false, false, None, Some("demo")), 1000, parseDuration).fs == SweepStamped
    ensures Lists(SweepStamped, Var, ["demo", "old"]) && Lists(SweepStamped, Tmp, ["demo", "old"])
    ensures
      var e := Run(SweepBefore, NoFaults, Args(false, false, None, Some("demo")), 1000, parseDuration, ["demo", "old"], ["demo", "old"]);
      && e.result.Ok?
      && Lookup(e.fs, Path(Var, "old")).None? && Lookup(e.fs, Path(Tmp, "old")).None?
      && Lookup(e.fs, Path(Var, "demo")) == Some(Dir(Some(Toml(Record("demo", 1000, 1209600)))))
  {
    SweepRun(parseDuration);
    SweepOutcome();
  }

}

=== FILE: errors.dfy ===
/** The error taxonomy of cdtest and the result types its operations return. */
module Errors {

  /** One variant per error of the tool; the `from` payloads carry the offending text. */
  datatype Error =
    | InitializeVarFailed
    | InitializeTmpFailed
    | ParseFailedTime(from: string)
    | ParseFailedToml(from: string)
    | ParseFailedPath(from: string)
    | ProjectDirectoryInvalid
    | ProjectSetupFailed
    | SubprocessFailed
    | WriteOutFailed

  /** A value or the error that prevented computing it. */
  datatype Result<+T> = Ok(value: T) | Err(error: Error)
}

=== FILE: filesystem.dfy ===
/**
  An abstract model of the part of the filesystem cdtest touches: two fixed
  roots (the persistent `/var/tmp/cdtest` and the volatile `/tmp/cdtest`), each
  either missing or a directory whose immediate children are named entries.

  The primitives below mirror the `std::fs` calls of the tool. Failures that
  follow from the state (creating over an existing entry, creating under a
  missing root, writing into something that is not a directory) are decided
  here; failures that do not (permissions, a full disk) are drawn from a
  `Faults` value that the caller supplies.
*/
module FileSystem {
  import opened Options

  /** The two storage roots. */
  datatype RootId = Var | Tmp

  /** `<root>/<name>`: a project directory, symlink or stray file. */
  datatype Path = Path(root: RootId, name: string)

  /** The persisted schema of `.cdtest.toml`: the three serialized fields. */
  datatype Record = Record(name: string, timestamp: int, garbageCollection: nat)

  /** Contents of a `.cdtest.toml`: either well-formed, or text that does not parse. */
  datatype Config = Toml(record: Record) | Malformed(content: string)

  /**
    A child of a root. A directory holds at most one metadata file; `None`
    stands for a metadata file that is missing or cannot be read.
  */
  datatype Entry = Dir(config: Option<Config>) | Symlink(target: Path) | File

  datatype Root = Missing | Present(entries: map<string, Entry>)

  datatype Fs = Fs(varRoot: Root, tmpRoot: Root)

  /**
    Which operations fail for reasons outside the model (permissions, I/O
    errors). `write` holds the directories whose metadata file cannot be
    opened; `partialWrite` maps a directory to the text left behind when the
    file was opened, and so truncated, but writing its contents then failed.
  */
  datatype Faults = Faults(
    rootCreate: set<RootId>,
    dirCreate: set<Path>,
    symlink: set<Path>,
    write: set<Path>,
    partialWrite: map<Path, string>,
    remove: set<Path>)

  const NoFaults := Faults({}, {}, {}, {}, map[], {})

  /**
    Result of a primitive: the new state; a failure that left the state
    alone; or a failure after the state had already changed.
  */
  datatype IoResult = IoOk(fs: Fs) | IoErr | IoFailedAfter(fs: Fs)

  function RootOf(fs: Fs, r: RootId): Root
  {
    match r
    case Var => fs.varRoot
    case Tmp => fs.tmpRoot
  }

  function WithRoot(fs: Fs, r: RootId, root: Root): (fs': Fs)
    ensures RootOf(fs', r) == root
    ensures forall r' :: r' != r ==> RootOf(fs', r') == RootOf(fs, r')
  {
    match r
    case Var => fs.(varRoot := root)
    case Tmp => fs.(tmpRoot := root)
  }

  predicate RootIsDir(fs: Fs, r: RootId)
  {
    RootOf(fs, r).Present?
  }

  /** The entry stored at `p` itself, without following symlinks. */
  function Lookup(fs: Fs, p: Path): Option<Entry>
  {
    match RootOf(fs, p.root)
    case Missing => None
    case Present(es) => if p.name in es then Some(es[p.name]) else None
  }

  predicate IsDirEntry(e: Option<Entry>)
  {
    e.Some? && e.value.Dir?
  }

  /**
    Rust's `is_symlink`: it inspects the entry itself, never a link target, so
    it holds for every symlink, dangling or not, and for nothing else.
  */
  predicate IsSymlink(fs: Fs, p: Path)
    ensures IsSymlink(fs, p) ==> Lookup(fs, p).Some? && !IsDirEntry(Lookup(fs, p)) && Lookup(fs, p) != Some(File)
    ensures Lookup(fs, p).Some? && Lookup(fs, p).value.Symlink? ==> IsSymlink(fs, p)
  {
    Lookup(fs, p).Some? && Lookup(fs, p).value.Symlink?
  }

  /**
    The directory `p` denotes: `p` itself when it is a directory, the target
    of a symlink at `p` when that target is a directory, else nothing.
  */
  function Resolve(fs: Fs, p: Path): (d: Option<Path>)
    ensures d.Some? ==> IsDirEntry(Lookup(fs, d.value))
    ensures IsDirEntry(Lookup(fs, p)) ==> d == Some(p)
    ensures IsSymlink(fs, p) ==>
      d == (if IsDirEntry(Lookup(fs, Lookup(fs, p).value.target)) then Some(Lookup(fs, p).value.target) else None)
    ensures !IsDirEntry(Lookup(fs, p)) && !IsSymlink(fs, p) ==> d.None?
  {
    match Lookup(fs, p)
    case Some(Dir(_)) => Some(p)
    case Some(Symlink(t)) => if IsDirEntry(Lookup(fs, t)) then Some(t) else None
    case _ => None
  }

  /** Rust's `is_dir`, which follows a symlink. */
  predicate IsDir(fs: Fs, p: Path)
  {
    Resolve(fs, p).Some?
  }

  /** Reading `<p>/.cdtest.toml`: absent when `p` is not a directory or the file is unreadable. */
  function ReadConfig(fs: Fs, p: Path): (c: Option<Config>)
    ensures c.Some? ==> IsDir(fs, p)
    ensures IsDirEntry(Lookup(fs, p)) ==> c == Lookup(fs, p).value.config
    ensures IsSymlink(fs, p) && IsDir(fs, p) ==> c == Lookup(fs, Lookup(fs, p).value.target).value.config
  {
    match Resolve(fs, p)
    case None => None
    case Some(d) => Lookup(fs, d).value.config
  }

  /** Two states agree on which roots exist and on every entry outside `changed`. */
  ghost predicate SameExcept(fs: Fs, fs': Fs, changed: set<Path>)
  {
    && (forall r :: RootIsDir(fs', r) == RootIsDir(fs, r))
    && (forall q :: q !in changed ==> Lookup(fs', q) == Lookup(fs, q))
  }

  /** Stores `e` at `p`, whose root must exist. */
  function Put(fs: Fs, p: Path, e: Entry): (fs': Fs)
    requires RootIsDir(fs, p.root)
    ensures Lookup(fs', p) == Some(e)
    ensures SameExcept(fs, fs', {p})
    ensures RootOf(fs', if p.root == Var then Tmp else Var) == RootOf(fs, if p.root == Var then Tmp else Var)
  {
    WithRoot(fs, p.root, Present(RootOf(fs, p.root).entries[p.name := e]))
  }

  /** Removes whatever is stored at `p`. */
  function Drop(fs: Fs, p: Path): (fs': Fs)
    ensures Lookup(fs', p) == None
    ensures SameExcept(fs, fs', {p})
  {
    match RootOf(fs, p.root)
    case Missing => fs
    case Present(es) => WithRoot(fs, p.root, Present(es - {p.name}))
  }

  /**
    `std::fs::create_dir` of a root: fails when the root already exists
    (`AlreadyExists`) or the environment refuses.
  */
  function CreateRoot(fs: Fs, faults: Faults, r: RootId): (res: IoResult)
    ensures !res.IoFailedAfter?
    ensures res.IoOk? <==> !RootIsDir(fs, r) && r !in faults.rootCreate
    ensures res.IoOk? ==> RootOf(res.fs, r) == Present(map[])
    ensures res.IoOk? ==> forall r' :: r' != r ==> RootOf(res.fs, r') == RootOf(fs, r')
  {
    if RootIsDir(fs, r) || r in faults.rootCreate then IoErr else IoOk(WithRoot(fs, r, Present(map[])))
  }

  /**
    `std::fs::create_dir(p)`: fails when the root is missing, when anything
    (even a dangling symlink) already exists at `p`, or when the environment refuses.
  */
  function CreateDir(fs: Fs, faults: Faults, p: Path): (res: IoResult)
    ensures !res.IoFailedAfter?
    ensures res.IoOk? <==> RootIsDir(fs, p.root) && Lookup(fs, p).None? && p !in faults.dirCreate
    ensures res.IoOk? ==> Lookup(res.fs, p) == Some(Dir(None)) && SameExcept(fs, res.fs, {p})
  {
    if !RootIsDir(fs, p.root) || Lookup(fs, p).Some? || p in faults.dirCreate then IoErr
    else IoOk(Put(fs, p, Dir(None)))
  }

  /** `unix::fs::symlink(target, link)`: the target is not inspected. */
  function CreateSymlink(fs: Fs, faults: Faults, target: Path, link: Path): (res: IoResult)
    ensures !res.IoFailedAfter?
    ensures res.IoOk? <==> RootIsDir(fs, link.root) && Lookup(fs, link).None? && link !in faults.symlink
    ensures res.IoOk? ==> Lookup(res.fs, link) == Some(Symlink(target)) && SameExcept(fs, res.fs, {link})
  {
    if !RootIsDir(fs, link.root) || Lookup(fs, link).Some? || link in faults.symlink then IoErr
    else IoOk(Put(fs, link, Symlink(target)))
  }

  /**
    Creating or truncating `<p>/.cdtest.toml` and writing `c` into it. The
    write lands in the directory `p` resolves to, so it goes through a symlink.
    If the file cannot be opened nothing changes; if it was opened but the
    write then failed, the truncated file holds only the text written so far.
  */
  function WriteConfig(fs: Fs, faults: Faults, p: Path, c: Config): (res: IoResult)
    ensures res.IoOk? <==> IsDir(fs, p) && p !in faults.write && p !in faults.partialWrite
    ensures res.IoErr? <==> !IsDir(fs, p) || p in faults.write
    ensures res.IoOk? ==> Lookup(res.fs, Resolve(fs, p).value) == Some(Dir(Some(c)))
    ensures res.IoFailedAfter? ==> Lookup(res.fs, Resolve(fs, p).value) == Some(Dir(Some(Malformed(faults.partialWrite[p]))))
    ensures !res.IoErr? ==> SameExcept(fs, res.fs, {Resolve(fs, p).value})
  {
    match Resolve(fs, p)
    case None => IoErr
    case Some(d) =>
      if p in faults.write then IoErr
      else if p in faults.partialWrite then IoFailedAfter(Put(fs, d, Dir(Some(Malformed(faults.partialWrite[p])))))
      else IoOk(Put(fs, d, Dir(Some(c))))
  }

  /**
    `std::fs::remove_dir_all(p)`: removes a directory tree, or the symlink
    itself without following it; fails on a missing path or a plain file.
  */
  function RemoveDirAll(fs: Fs, faults: Faults, p: Path): (res: IoResult)
    ensures !res.IoFailedAfter?
    ensures res.IoOk? <==> p !in faults.remove && Lookup(fs, p).Some? && !Lookup(fs, p).value.File?
    ensures res.IoOk? ==> Lookup(res.fs, p) == None && SameExcept(fs, res.fs, {p})
  {
    if p in faults.remove then IoErr
    else match Lookup(fs, p)
      case Some(Dir(_)) => IoOk(Drop(fs, p))
      case Some(Symlink(_)) => IoOk(Drop(fs, p))
      case _ => IoErr
  }
}

=== FILE: options.dfy ===
/** A value that may be absent: the model's counterpart of Rust's `Option`. */
module Options {
  datatype Option<+T> = None | Some(value: T)
}

=== FILE: projects.dfy ===
/**
  One cdtest project: the record the tool keeps in memory, how it is found
  (persistent root first, then volatile root, else a fresh default), where
  it lives, how it sets itself up on disk, how it persists its metadata,
  and when it is garbage collected.
*/
module Projects {
  import opened Options
  import opened Errors
  import opened FileSystem

  const CdtestRootVar := "/var/tmp/cdtest"
  const CdtestRootTmp := "/tmp/cdtest"
  /** Default retention: two weeks, in seconds. */
  const DefaultGcDuration: nat := 604800 * 2
  const CdtestToml := ".cdtest.toml"

  /**
    The in-memory project. `name`, `timestamp` and `garbageCollection` are
    persisted; `forceOverride`, `tmpOnly` and `existing` are not, and read
    back as `false`. Times and durations are whole seconds.
  */
  datatype Project = Project(
    name: string,
    timestamp: int,
    forceOverride: bool,
    garbageCollection: nat,
    tmpOnly: bool,
    existing: bool)

  /** The result of a step that changes the filesystem: the new state, and a value or an error. */
  datatype Effect<+T> = Effect(fs: Fs, result: Result<T>)

  /** What a project reads back as after a save: its persisted fields, every transient flag cleared. */
  function Persisted(p: Project): (q: Project)
    ensures q.name == p.name && q.timestamp == p.timestamp && q.garbageCollection == p.garbageCollection
    ensures !q.forceOverride && !q.tmpOnly && !q.existing
  {
    Project(p.name, p.timestamp, false, p.garbageCollection, false, false)
  }

  /** `Default::default()`: an unnamed project stamped `now` with the default retention. */
  function Default(now: int): (p: Project)
    ensures p.name == "" && p.timestamp == now && p.garbageCollection == DefaultGcDuration
    ensures !p.forceOverride && !p.tmpOnly && !p.existing
  {
    Project("", now, false, DefaultGcDuration, false, false)
  }

  /* ---------- paths ---------- */

  function RootText(r: RootId): string
  {
    match r
    case Var => CdtestRootVar
    case Tmp => CdtestRootTmp
  }

  /** The textual form of a path, as carried in error messages. */
  function PathText(p: Path): string
  {
    RootText(p.root) + "/" + p.name
  }

  /** The text of `<p>/.cdtest.toml`. */
  function ConfigPathText(p: Path): (t: string)
    ensures t == RootText(p.root) + "/" + p.name + "/" + CdtestToml
  {
    PathText(p) + "/" + CdtestToml
  }

  function VarHome(p: Project): Path
  {
    Path(Var, p.name)
  }

  function TmpHome(p: Project): Path
  {
    Path(Tmp, p.name)
  }

  /** The canonical directory: the volatile one exactly when the project is tmp-only. */
  function Home(p: Project): (h: Path)
    ensures h.name == p.name
    ensures h.root == Tmp <==> p.tmpOnly
    ensures h == VarHome(p) || h == TmpHome(p)
  {
    if p.tmpOnly then TmpHome(p) else VarHome(p)
  }

  /* ---------- persistence ---------- */

  /**
    Serializing a project writes well-formed metadata holding exactly its
    three persisted fields; the transient flags are skipped.
  */
  function Serialize(p: Project): (c: Config)
    ensures c.Toml?
    ensures c.record.name == p.name && c.record.timestamp == p.timestamp
    ensures c.record.garbageCollection == p.garbageCollection
  {
    Toml(Record(p.name, p.timestamp, p.garbageCollection))
  }

  /** Parsing what was serialized gives back the persisted fields and nothing else. */
  lemma SerializeRoundTrip(p: Project)
    ensures Deserialize(Serialize(p)) == Ok(Persisted(p))
    ensures Serialize(Persisted(p)) == Serialize(p)
  {
  }

  /** Parsing metadata: malformed text is an error carrying that text; skipped fields read as `false`. */
  function Deserialize(c: Config): (r: Result<Project>)
    ensures r.Err? <==> c.Malformed?
    ensures r.Err? ==> r.error == ParseFailedToml(c.content)
    ensures r.Ok? ==> !r.value.forceOverride && !r.value.tmpOnly && !r.value.existing
    ensures r.Ok? ==> Serialize(r.value) == c
  {
    match c
    case Toml(rec) => Ok(Project(rec.name, rec.timestamp, false, rec.garbageCollection, false, false))
    case Malformed(text) => Err(ParseFailedToml(text))
  }

  /**
    `from_project_dir`: load the project whose directory is `path`. Failures,
    tried in this order: not a directory, metadata unreadable, metadata malformed.
  */
  function FromProjectDir(fs: Fs, path: Path): (r: Result<Project>)
    ensures !IsDir(fs, path) ==> r == Err(ProjectDirectoryInvalid)
    ensures IsDir(fs, path) && ReadConfig(fs, path).None? ==> r == Err(ParseFailedPath(ConfigPathText(path)))
    ensures ReadConfig(fs, path).Some? && ReadConfig(fs, path).value.Malformed?
            ==> r == Err(ParseFailedToml(ReadConfig(fs, path).value.content))
    ensures r.Ok? <==> ReadConfig(fs, path).Some? && ReadConfig(fs, path).value.Toml?
    ensures r.Ok? ==> Serialize(r.value) == ReadConfig(fs, path).value
    ensures r.Ok? ==> !r.value.forceOverride && !r.value.tmpOnly && !r.value.existing
  {
    if !IsDir(fs, path) then Err(ProjectDirectoryInvalid)
    else match ReadConfig(fs, path)
      case None => Err(ParseFailedPath(ConfigPathText(path)))
      case Some(c) => Deserialize(c)
  }

  /**
    `write_out`: save the project's persisted fields to `home()/.cdtest.toml`.
    Any failure is `WriteOutFailed`. When the file cannot be opened nothing
    changes; when it was opened (and so truncated) but the write then failed,
    it is left holding only part of the text. Nothing else on disk changes.
  */
  function WriteOut(fs: Fs, faults: Faults, p: Project): (e: Effect<()>)
    ensures e.result.Ok? <==> IsDir(fs, Home(p)) && Home(p) !in faults.write && Home(p) !in faults.partialWrite
    ensures e.result.Err? ==> e.result.error == WriteOutFailed
    ensures !IsDir(fs, Home(p)) || Home(p) in faults.write ==> e == Effect(fs, Err(WriteOutFailed))
    ensures e.result.Ok? ==> Lookup(e.fs, Resolve(fs, Home(p)).value) == Some(Dir(Some(Serialize(p))))
    ensures IsDir(fs, Home(p)) && Home(p) !in faults.write && Home(p) in faults.partialWrite
            ==> Lookup(e.fs, Resolve(fs, Home(p)).value) == Some(Dir(Some(Malformed(faults.partialWrite[Home(p)]))))
    ensures IsDir(fs, Home(p)) ==> SameExcept(fs, e.fs, {Resolve(fs, Home(p)).value})
  {
    match WriteConfig(fs, faults, Home(p), Serialize(p))
    case IoErr => Effect(fs, Err(WriteOutFailed))
    case IoFailedAfter(fs') => Effect(fs', Err(WriteOutFailed))
    case IoOk(fs') => Effect(fs', Ok(()))
  }

  /**
    A save cut short after truncation destroys the previous metadata: loading
    `home()` afterwards fails on the partial text.
  */
  lemma WriteOutTruncatedThenLoad(fs: Fs, faults: Faults, p: Project)
    requires IsDir(fs, Home(p)) && Home(p) !in faults.write && Home(p) in faults.partialWrite
    ensures FromProjectDir(WriteOut(fs, faults, p).fs, Home(p)) == Err(ParseFailedToml(faults.partialWrite[Home(p)]))
  {
  }

  /** Round trip: loading `home()` after a successful save gives back exactly the persisted fields. */
  lemma WriteOutThenLoad(fs: Fs, faults: Faults, p: Project)
    requires WriteOut(fs, faults, p).result.Ok?
    ensures FromProjectDir(WriteOut(fs, faults, p).fs, Home(p)) == Ok(Persisted(p))
  {
  }

  /** Saving twice leaves the same state as saving once (the driver saves right after `initialize`). */
  lemma WriteOutIdempotent(fs: Fs, faults: Faults, p: Project)
    requires WriteOut(fs, faults, p).result.Ok?
    ensures WriteOut(WriteOut(fs, faults, p).fs, faults, p) == WriteOut(fs, faults, p)
  {
  }

  /* ---------- resolution ---------- */

  /**
    `Project::new`: the project stored in the persistent root wins; failing
    that, the one stored in the volatile root, marked tmp-only; failing both,
    a fresh project with the default settings. Loaded metadata never sets
    `existing`, so the result is never marked as pre-existing.
  */
  function New(fs: Fs, name: string, now: int): (p: Project)
    ensures !p.existing && !p.forceOverride
    ensures FromProjectDir(fs, Path(Var, name)).Ok? ==> p == FromProjectDir(fs, Path(Var, name)).value
    ensures p.tmpOnly <==> FromProjectDir(fs, Path(Var, name)).Err? && FromProjectDir(fs, Path(Tmp, name)).Ok?
    ensures p.tmpOnly ==> Persisted(p) == FromProjectDir(fs, Path(Tmp, name)).value
    ensures FromProjectDir(fs, Path(Var, name)).Err? && FromProjectDir(fs, Path(Tmp, name)).Err? ==>
      p.name == name && p.timestamp == now && p.garbageCollection == DefaultGcDuration && !p.tmpOnly
  {
    match FromProjectDir(fs, Path(Var, name))
    case Ok(proj) => proj
    case Err(_) =>
      match FromProjectDir(fs, Path(Tmp, name))
      case Ok(proj) => proj.(tmpOnly := true)
      case Err(_) => Default(now).(name := name, existing := false)
  }

  /** A name whose persistent directory loads resolves to it even when the volatile root holds a project of the same name. */
  lemma NewPrefersVar(fs: Fs, name: string, now: int, rec: Record)
    requires Lookup(fs, Path(Var, name)) == Some(Dir(Some(Toml(rec))))
    ensures New(fs, name, now) == Project(rec.name, rec.timestamp, false, rec.garbageCollection, false, false)
  {
  }

  /** A name under neither root yields a fresh project stamped `now` with the two-week retention. */
  lemma NewFresh(fs: Fs, name: string, now: int)
    requires Lookup(fs, Path(Var, name)).None? && Lookup(fs, Path(Tmp, name)).None?
    ensures New(fs, name, now) == Project(name, now, false, 1209600, false, false)
  {
  }

  /** The loaded name is the one in the metadata, not the directory's: `var/a` holding `name = "b"` loads as `b`. */
  lemma NewNameComesFromMetadata(now: int)
    ensures New(Fs(Present(map["a" := Dir(Some(Toml(Record("b", 7, 60))))]), Present(map[])), "a", now).name == "b"
  {
  }

  /* ---------- set-up ---------- */

  /**
    `initialize`: stamp the project with `now`, make sure its home is a
    directory, link the volatile root to a persistent home, and save.
    Directory or symlink creation failing is `ProjectSetupFailed`; the save
    failing is `WriteOutFailed`.
  */
  function Initialize(fs: Fs, faults: Faults, p: Project, now: int): (e: Effect<Project>)
    ensures e.result.Ok? ==> e.result.value == p.(timestamp := now)
    ensures e.result.Ok? ==> IsDir(e.fs, Home(p)) && ReadConfig(e.fs, Home(p)) == Some(Serialize(p.(timestamp := now)))
    ensures e.result.Err? ==> e.result.error == ProjectSetupFailed || e.result.error == WriteOutFailed
    ensures !IsDir(fs, Home(p)) && CreateDir(fs, faults, Home(p)).IoErr? ==> e == Effect(fs, Err(ProjectSetupFailed))
    ensures !p.tmpOnly && IsDir(fs, Home(p)) && !IsDir(fs, TmpHome(p)) && CreateSymlink(fs, faults, Home(p), TmpHome(p)).IoErr?
            ==> e == Effect(fs, Err(ProjectSetupFailed))
    ensures IsDir(fs, Home(p)) && (p.tmpOnly || IsDir(fs, TmpHome(p))) && Home(p) in faults.write
            ==> e == Effect(fs, Err(WriteOutFailed))
    ensures e.result == Err(WriteOutFailed) ==> IsDir(e.fs, Home(p)) && (Home(p) in faults.write || Home(p) in faults.partialWrite)
    ensures SameExcept(fs, e.fs, {Home(p), TmpHome(p)} + if IsDir(fs, Home(p)) then {Resolve(fs, Home(p)).value} else {})
    ensures
      var homeFailed := !IsDir(fs, Home(p)) && CreateDir(fs, faults, Home(p)).IoErr?;
      var fs1 := if IsDir(fs, Home(p)) || homeFailed then fs else CreateDir(fs, faults, Home(p)).fs;
      var linkFailed := !p.tmpOnly && !IsDir(fs1, TmpHome(p)) && CreateSymlink(fs1, faults, Home(p), TmpHome(p)).IoErr?;
      && (e.result == Err(ProjectSetupFailed) <==> homeFailed || linkFailed)
      && (!homeFailed && linkFailed ==> e.fs == fs1)
      && (e.result.Ok? <==> !homeFailed && !linkFailed && Home(p) !in faults.write && Home(p) !in faults.partialWrite)
  {
    var p' := p.(timestamp := now);
    var home := Home(p');
    var made := if IsDir(fs, home) then IoOk(fs) else CreateDir(fs, faults, home);
    match made
    case IoErr => Effect(fs, Err(ProjectSetupFailed))
    case IoOk(fs1) =>
      var tmpHome := TmpHome(p');
      var linked := if !p'.tmpOnly && !IsDir(fs1, tmpHome) then CreateSymlink(fs1, faults, home, tmpHome) else IoOk(fs1);
      match linked
      case IoErr => Effect(fs1, Err(ProjectSetupFailed))
      case IoOk(fs2) =>
        var saved := WriteOut(fs2, faults, p');
        match saved.result
        case Err(err) => Effect(saved.fs, Err(err))
        case Ok(_) => Effect(saved.fs, Ok(p'))
  }

  /** After a successful `initialize`, saving once more succeeds and changes nothing. */
  lemma InitializeSavesOnce(fs: Fs, faults: Faults, p: Project, now: int)
    requires Initialize(fs, faults, p, now).result.Ok?
    ensures var e := Initialize(fs, faults, p, now);
      WriteOut(e.fs, faults, e.result.value) == Effect(e.fs, Ok(()))
  {
    var p' := p.(timestamp := now);
    var home := Home(p');
    var made := if IsDir(fs, home) then IoOk(fs) else CreateDir(fs, faults, home);
    var linked := if !p'.tmpOnly && !IsDir(made.fs, TmpHome(p')) then CreateSymlink(made.fs, faults, home, TmpHome(p')) else IoOk(made.fs);
    WriteOutIdempotent(linked.fs, faults, p');
  }

  /**
    A persistent project whose volatile path was not a directory ends up
    reachable from the volatile root through a symlink to its home.
  */
  lemma InitializeLinksTmp(fs: Fs, faults: Faults, p: Project, now: int)
    requires Initialize(fs, faults, p, now).result.Ok?
    requires !p.tmpOnly && !IsDir(fs, TmpHome(p))
    ensures Lookup(Initialize(fs, faults, p, now).fs, TmpHome(p)) == Some(Symlink(VarHome(p)))
  {
  }

  /**
    A tmp-only project leaves the persistent root alone, provided its volatile
    path is not a symlink (a save would follow such a link).
  */
  lemma InitializeTmpOnlyKeepsVar(fs: Fs, faults: Faults, p: Project, now: int)
    requires p.tmpOnly && !IsSymlink(fs, TmpHome(p))
    ensures Initialize(fs, faults, p, now).fs.varRoot == fs.varRoot
  {
  }

  /**
    The exception: a tmp-only project `x` whose volatile path is a symlink to
    `var/x`, as every persistent project's is, has its metadata written into
    the persistent directory. Here `var/x` no longer parses, so `x` resolves
    from the volatile root.
  */
  lemma InitializeTmpOnlyWritesThroughSymlink(now: int)
    ensures
      var fs := Fs(Present(map["x" := Dir(Some(Malformed("?")))]), Present(map["x" := Symlink(Path(Var, "x"))]));
      var p := Project("x", 0, false, 60, true, false);
      var e := Initialize(fs, NoFaults, p, now);
      e.result.Ok? && e.fs.varRoot == Present(map["x" := Dir(Some(Toml(Record("x", now, 60))))])
  {
  }

  /* ---------- garbage collection ---------- */

  /** Strictly more than the retention has elapsed since the timestamp. */
  predicate Expired(p: Project, now: int)
  {
    now - p.timestamp > p.garbageCollection
  }

  /** Neither a directory nor a symlink is stored at `q`. */
  predicate Cleared(fs: Fs, q: Path)
  {
    Lookup(fs, q).None? || Lookup(fs, q) == Some(File)
  }

  /** `remove_dir_all(..).ok()`: a failed removal is ignored and changes nothing. */
  function RemoveBestEffort(fs: Fs, faults: Faults, q: Path): (fs': Fs)
    ensures SameExcept(fs, fs', {q})
    ensures q !in faults.remove ==> Cleared(fs', q)
    ensures forall q' :: Lookup(fs', q').None? || Lookup(fs', q') == Lookup(fs, q')
  {
    match RemoveDirAll(fs, faults, q)
    case IoOk(fs') => fs'
    case IoErr => fs
  }

  /**
    `garbage_collect`: once strictly more than the retention has elapsed since
    the timestamp, remove `home()` and `tmp_home()`, ignoring failures. A
    timestamp in the future counts as not elapsed.
  */
  function GarbageCollect(fs: Fs, faults: Faults, p: Project, now: int): (fs': Fs)
    ensures !Expired(p, now) ==> fs' == fs
    ensures SameExcept(fs, fs', {Home(p), TmpHome(p)})
    ensures Expired(p, now) && Home(p) !in faults.remove ==> Cleared(fs', Home(p))
    ensures Expired(p, now) && TmpHome(p) !in faults.remove ==> Cleared(fs', TmpHome(p))
    ensures forall q :: Lookup(fs', q).None? || Lookup(fs', q) == Lookup(fs, q)
  {
    if now < p.timestamp then fs
    else if now - p.timestamp > p.garbageCollection then
      RemoveBestEffort(RemoveBestEffort(fs, faults, Home(p)), faults, TmpHome(p))
    else fs
  }

  /** Three weeks after its timestamp a two-week project is collected; one day after, it is kept. */
  lemma GarbageCollectExamples(fs: Fs, now: int)
    ensures var p := Project("p", now - 3 * 604800, false, DefaultGcDuration, false, false);
      var fs' := GarbageCollect(fs, NoFaults, p, now);
      Cleared(fs', Path(Var, "p")) && Cleared(fs', Path(Tmp, "p"))
    ensures GarbageCollect(fs, NoFaults, Project("p", now - 86400, false, DefaultGcDuration, false, false), now) == fs
  {
  }
}
